=== FILE: README.md ===
# SSH transport framing: packet codec and version exchange

A Dafny model of the two pure cores of a small Python SSH client:

- `PacketManager` (`packet_manager.dfy`): the binary packet protocol of
  section 6 of RFC 4253 as this client implements it. It covers the padding
  length and the frame layout. It covers whole-frame encryption with a fresh
  zero-IV AES-CTR encryptor on every call. It covers the HMAC-SHA256 tag
  over the 4-byte sequence number followed by the *encrypted* frame. It
  covers the single counter that both `create_packet` and `parse_packet`
  advance. It also covers `_create_name_list` (section 5 of RFC 4251) and
  the KEXINIT payload of section 7.1 of RFC 4253.
- `VersionExchange` (`version_exchange.dfy`, with `py_text.dfy`): the
  identification-string exchange of section 4.2 of RFC 4253. This is
  Python's `strip()`, the 255-character limit, the regex
  `^SSH-2.0-(\S+)` and the literal `SSH-2.0-` check.

Shared pieces are in `wire.dfy`: big-endian `struct.pack(">I")`/`unpack`,
Python slice semantics, ASCII encoding and byte-wise XOR. `wrappers.dfy`
holds `Option` and `Result`.

Modelling choices:

- The object's mutable fields become the record `PacketState(sequence,
  encryptionKey, macKey)`. `CreatePacket` and `ParsePacket` return the next
  state inside `Success`. A `Failure` (a raised exception) means the caller
  keeps its old state, so the counter is unchanged on every error.
- `os.urandom`, the AES-CTR keystream and HMAC-SHA256 are function-valued
  fields of `Primitives`. Their subset types fix only the output lengths:
  n random bytes, an n-byte keystream, and a 32-byte tag. Encryption is XOR
  with `keystream(key, |data|)`. Every call starts from the same counter
  block, so decryption undoes encryption for any keystream.
- `if self.encryption_key:` and `if self.mac_key:` test Python truthiness.
  `Enabled` is therefore false for `None` and also for an empty key.
- The encryption and MAC steps are switched independently by each key's
  truthiness, as RFC 4253 negotiates the cipher and the MAC separately.
- The counter is a `nat`. The code packs it only when a MAC is computed, so
  `SequenceOverflow` (Python's `struct.error`) arises only then, once the
  counter reaches 2^32. There is no wrap-around.
- `IsSpace` is Python's `str.isspace`. It covers the ASCII characters
  9–13, 28–32 and the Unicode whitespace characters. CPython uses the same
  table for `strip()` and for `\s` in str patterns. The unescaped `.` in the
  pattern matches any character except `\n`.
- The socket is a log of `SocketCall`s plus the text that `receive`
  returns. Decoding happens before the model starts.
- `ParseNameList`, `ParseNameLists` and `ParseKexinitPayload` have no
  counterpart in the Python code. They are reference decoders, and the
  round-trip lemmas use them to state what the encoders put on the wire.

Where the code differs from RFC 4253, the model follows the code:

- Stripping removes all leading and trailing whitespace, not only CR LF.
- The MAC covers the encrypted frame.
- The counter does not wrap.
- A fresh cipher context is made per packet, so the keystream restarts at
  zero every time.
- Out-of-range slice bounds in `parse_packet` yield a short payload rather
  than an error.
- One counter serves both directions, so an object cannot check the tag of a packet it created itself (second row of "## Findings"). `Endpoint`, `SendOn` and `ReceiveOn` are the per-direction correction.
- The counter test at src/tests/test_packet_manager.py:91-97 expects the
  counter to rise by 2 over a create, a create and a parse. The code raises
  it by 3, and `CounterAfterCreateCreateParse` proves 3.

## Model

| member | source | states |
|---|---|---|
| `PacketManager.SetEncryption` | src/network/packet_manager.py:18-25 | installs both keys and keeps the counter; each later step is on exactly when its key is non-empty |
| `PacketManager.CryptInvolutive` | src/network/packet_manager.py:42-73 | a fresh zero-IV decryptor undoes a fresh zero-IV encryptor under the same key |
| `PacketManager.Crypt` | src/network/packet_manager.py:42-44 | one pass of a fresh encryptor keeps the length. Under a truthy key, XOR with the key's keystream turns the output back into the input, so the output is the input masked by that keystream. Under a falsy key it is the identity |
| `PacketManager.PaddingLength` | src/network/packet_manager.py:29-31 | the padding is 4..11 bytes, makes 5 + payload + padding a multiple of 8, and is the least such value from 4 up |
| `PacketManager.Frame` | src/network/packet_manager.py:34-40 | the frame is the 4-byte big-endian length (its own size minus 4), the padding-length byte, the payload, then the padding |
| `PacketManager.Seal` | src/network/packet_manager.py:42-52 | the first bytes decrypt to the frame; with a MAC key, a 32-byte HMAC over be32(counter) and the encrypted frame follows |
| `PacketManager.CreatePacket` | src/network/packet_manager.py:27-55 | succeeds exactly when both `struct.pack` calls are in range; the output is 5 + payload + padding bytes (plus 32 with a MAC), its frame holds the payload and the drawn padding, and the tag uses the counter before the increment; the counter rises by 1 and the keys are unchanged; an oversized length raises `LengthOverflow` and, only when the length fits, an unpackable counter raises `SequenceOverflow` (the `struct.error` of :49) |
| `PacketManager.Body` | src/network/packet_manager.py:61-62 | with a truthy MAC key the body is all but the last 32 bytes, and empty when there are fewer than 32; without one it is the whole input |
| `PacketManager.OpenFrame` | src/network/packet_manager.py:57-76 | the first steps of `parse_packet` succeed exactly when the MAC step accepts and the body has at least 5 bytes. A body under 4 bytes gives the unpack error and one of exactly 4 gives the padding-length error. With a MAC key, the MAC error arises exactly when the last 32 bytes differ from the HMAC of be32(counter) and the rest, and always for input under 32 bytes. Without a MAC key there is no MAC or counter error. On success the result is the decrypted body |
| `PacketManager.ParsePacket` | src/network/packet_manager.py:57-80 | has the errors of the first steps and no others. On success the payload is Python's `frame[5 : packet_length - padding_length]` (`SliceFromFive`): the bytes from 5 to that end, clamped to the frame, counted back from the end when negative, and empty when the end is at or before byte 5. The counter rises by 1 and the keys are unchanged |
| `PacketManager.OpenSeal` | src/network/packet_manager.py:42-73 | opening a sealed frame under the state that sealed it verifies the tag and gives back the frame |
| `PacketManager.ExtractAsWritten` | src/network/packet_manager.py:75-77 | for a well-formed frame the as-written slice is the payload without its last four bytes |
| `PacketManager.RoundTrip` | src/network/packet_manager.py:27-80 | a receiver with the sender's keys and counter parses the packet to the payload minus its last four bytes, and both counters advance by 1 |
| `PacketManager.RoundTripLosesPayload` | src/network/packet_manager.py:75-77 | for every non-empty payload the parsed payload differs from the one sent |
| `PacketManager.ParsePacketIntended` | src/network/packet_manager.py:75-79 | the corrected parser has the same errors and counter step as the original, and its payload is `frame[5 : 4 + packet_length - padding_length]` under the same slicing rules |
| `PacketManager.RoundTripIntended` | src/network/packet_manager.py:75-77 | with the corrected slice end, parsing returns exactly the payload sent |
| `PacketManager.CounterAfterCreateCreateParse` | src/network/packet_manager.py:54-79 | without a MAC key, two creates and a parse of the second packet raise the shared counter by 3 |
| `PacketManager.FreshObjectLoopback` | src/tests/test_packet_manager.py:47-52 | a fresh object without keys that creates a packet and parses it itself gets the payload without its last four bytes, and its counter ends at 2 |
| `PacketManager.LoopbackAsWritten` | src/network/packet_manager.py:63-69 | with a MAC key, the object that created a packet accepts it back exactly when HMAC gives the tag for counter s+1 the same value as the tag for s, which the packet carries |
| `PacketManager.SendOn` | src/network/packet_manager.py:46-54 | sending from an endpoint with per-direction counters succeeds exactly when `create_packet` would, advances only the send counter, and keeps the keys |
| `PacketManager.ReceiveOn` | src/network/packet_manager.py:59-79 | receiving checks the tag against the receive counter, succeeds exactly when the first steps of `parse_packet` do under that counter, and advances only the receive counter; a failure carries the parser's own error |
| `PacketManager.LoopbackIntended` | src/network/packet_manager.py:46-79 | with per-direction counters that start equal, an endpoint receiving the packet it just sent gets the payload back under any keys, and each counter moves once |
| `PacketManager.PlainPacketLayout` | src/network/packet_manager.py:34-40 | with neither key set, the length field equals the packet length minus 4, byte 4 is in 4..11, and bytes 5.. are the payload |
| `PacketManager.PayloadInClear` | src/network/packet_manager.py:34-44 | without an encryption key the payload appears unchanged at offset 5 of the packet |
| `PacketManager.Join` | src/network/packet_manager.py:116 | the joined text is ASCII exactly when every name is, and begins with the first name |
| `PacketManager.JoinSnoc` | src/network/packet_manager.py:116 | for any names, empty or comma-bearing ones included, appending a name appends it to the joined text behind one comma, or makes it the whole text when the list was empty |
| `PacketManager.CreateNameList` | src/network/packet_manager.py:115-117 | fails with `NonAsciiName` on non-ASCII names and with `LengthOverflow` when the ASCII text has 2^32 characters or more; otherwise the result is a 4-byte big-endian count followed by the ASCII bytes of the comma-joined names |
| `PacketManager.EmptyNameList` | src/network/packet_manager.py:115-117 | an empty list encodes as four zero bytes |
| `PacketManager.SplitJoin` | src/network/packet_manager.py:116 | splitting the comma-joined text of non-empty, comma-free names gives the names back |
| `PacketManager.NameListRoundTrip` | src/network/packet_manager.py:115-117 | for names that are non-empty and comma-free (what a comma-separated list can carry back), decoding the encoded name-list returns the names and leaves the bytes that follow |
| `PacketManager.NameLists` | src/network/packet_manager.py:100-109 | the concatenated encodings exist exactly when every list encodes; they are each list's `_create_name_list` result joined end to end, in argument order |
| `PacketManager.NameListsError` | src/network/packet_manager.py:100-109 | when the encodings fail, the error is that of the first list that does not encode, every earlier list encoding |
| `PacketManager.NameListsRoundTrip` | src/network/packet_manager.py:100-109 | consecutive encoded name-lists decode back to the lists in order |
| `PacketManager.KexinitPayload` | src/network/packet_manager.py:97-112 | the payload is byte 20, then the cookie, then the ten lists' encodings in argument order, then five zero bytes; it fails exactly when some list fails to encode, and then with the name-lists' own error |
| `PacketManager.KexinitPayloadRoundTrip` | src/network/packet_manager.py:97-112 | with a 16-byte cookie, the payload decodes to the cookie, the ten lists in argument order, a zero flag and four zero reserved bytes |
| `PacketManager.CreateKexinitPacket` | src/network/packet_manager.py:82-113 | succeeds exactly when the payload builds and `create_packet` would succeed on it; a payload error is passed through, and otherwise the result is `create_packet`'s on the built payload; the counter rises by 1 |
| `PacketManager.KexinitPacketLayout` | src/network/packet_manager.py:97-113 | unencrypted, packet byte 5 is 20 and the cookie follows it |
| `PacketManager.HeaderInClear` | src/network/packet_manager.py:97-99 | a payload that starts with 20 and the cookie shows them at packet offsets 5 and 6 when unencrypted |
| `PacketManager.KexinitPacketRoundTrip` | src/network/packet_manager.py:82-113 | a KEXINIT packet read back by the corrected parser under the same state decodes to the cookie and the ten lists |
| `Wire.Be32` | src/network/packet_manager.py:36 | `struct.pack(">I", n)` gives four bytes whose big-endian value is n |
| `Wire.Be32Value` | src/network/packet_manager.py:75 | `struct.unpack(">I")` gives a value below 2^32 whose base-256 digits, most significant first, are the four bytes in order |
| `Wire.Be32OfValue` | src/network/packet_manager.py:75 | unpacking then repacking four bytes is the identity |
| `Wire.PyBound` | src/network/packet_manager.py:77 | a slice bound counts from the end when negative and is clamped to [0, len]: above len it becomes len, below -len it becomes 0 |
| `Wire.PySlice` | src/network/packet_manager.py:77 | Python slicing never raises and never grows the input. In-range bounds give the plain subsequence, crossing normalised bounds give the empty sequence, and otherwise the length is the distance between the normalised bounds |
| `Wire.XorInvolutive` | src/network/packet_manager.py:43-44 | XOR with the same keystream twice is the identity |
| `Wire.AsciiRoundTrip` | src/network/packet_manager.py:116 | decoding the ASCII encoding of ASCII text gives the text back |
| `PyText.IsSpace` | src/network/version_exchange.py:36 | `str.isspace`, which `strip()` and `\S` in the pattern at line 42 share. Among ASCII characters, exactly these ten are whitespace: space, tab, LF, CR, VT, FF and 0x1C–0x1F. Letters, digits, `-`, `.` and `_` are not |
| `PyText.Strip` | src/network/version_exchange.py:36 | the result is `s` with surrounding whitespace removed and neither begins nor ends with whitespace |
| `PyText.StripUnique` | src/network/version_exchange.py:36 | any string satisfying that description is `Strip(s)` |
| `PyText.StripTrailingSpace` | src/network/version_exchange.py:36 | for a line that neither starts nor ends with whitespace, a trailing CR LF (or any run of whitespace) after it is removed and nothing else is |
| `VersionExchange.ClientLine` | src/network/version_exchange.py:10-19 | the bytes sent are `SSH-2.0-PythonSSHClient_1.0` followed by CR LF |
| `VersionExchange.NonSpaceRun` | src/network/version_exchange.py:42 | the run of non-whitespace at i is maximal: it ends at the end of the text or at a whitespace character |
| `VersionExchange.MatchBanner` | src/network/version_exchange.py:42-44 | there is no match exactly when no prefix has the shape `SSH-2`, any character but newline, `0-`, non-whitespace; otherwise the match is the longest such prefix |
| `VersionExchange.LongestBannerUnique` | src/network/version_exchange.py:42-44 | the longest matching prefix is unique |
| `VersionExchange.ParseServerVersion` | src/network/version_exchange.py:32-46 | stripped text over 255 characters gives the length error; otherwise no matching prefix gives the format error; it never gives the validation error, so any other text succeeds with the longest match, at most 255 characters |
| `VersionExchange.ValidateServerVersion` | src/network/version_exchange.py:48-52 | a matched banner is accepted exactly when its sixth character is `.` |
| `VersionExchange.ExchangeVersions` | src/network/version_exchange.py:14-30 | the client line is sent before one receive of 257 bytes. The length error happens exactly when the stripped text exceeds 255, before any format check. The validation error happens exactly when the stripped text is short enough and matches with a sixth character other than `.`; it stores the rejected banner. A success is the longest match, starts with `SSH-2.0-`, is at most 255 long and is stored. Parse failures leave the stored value unchanged |
| `VersionExchange.ExchangeSucceedsIff` | src/network/version_exchange.py:14-52 | the exchange succeeds exactly when the stripped text is at most 255 long and starts with `SSH-2.0-` plus a non-whitespace character |
| `VersionExchange.ExchangeAccepts` | src/network/version_exchange.py:25-30 | a short enough text whose longest match has `.` as its sixth character yields that match |
| `VersionExchange.ExchangeOpenSsh` | src/tests/test_version_exchange.py:16-29 | `SSH-2.0-OpenSSH_8.2p1 Ubuntu-4ubuntu0.5` plus CR LF yields `SSH-2.0-OpenSSH_8.2p1` |
| `VersionExchange.StripOpenSsh` | src/tests/test_version_exchange.py:18-20 | stripping that banner removes only the CR LF |
| `VersionExchange.OpenSshLongest` | src/tests/test_version_exchange.py:16-29 | its longest match stops at the first space |
| `VersionExchange.ExchangeMalformed` | src/tests/test_version_exchange.py:31-37 | `Invalid-SSH-Version` gives the format error |
| `VersionExchange.ExchangeTooLong` | src/tests/test_version_exchange.py:39-48 | `SSH-2.0-` plus 256 `X` gives the length error |
| `VersionExchange.ExchangeWildcardVersion` | src/network/version_exchange.py:42-52 | `SSH-2x0-abc` passes the pattern and fails validation, and it stays stored |

## Findings

| source | as written | input that shows it | evidently intended | confidence | as-written member | corrected member |
|---|---|---|---|---|---|---|
| src/network/packet_manager.py:77 | `payload = data[5 : packet_length - padding_length]` ends the slice 4 bytes early: it measures from the start of the frame, but `packet_length` excludes the 4-byte length field | `create_packet(b"Test payload")` then `parse_packet` on the result, with no keys, returns `b"Test pay"` | `data[5 : 4 + packet_length - padding_length]`, which returns the whole payload, as src/tests/test_packet_manager.py:47-52 expects | high; not executed | `PacketManager.RoundTripLosesPayload` | `PacketManager.RoundTripIntended` |
| src/network/packet_manager.py:65 | `parse_packet` checks the tag against `self.sequence_number`, the counter `create_packet` advanced at line 54, so an object checks incoming tags against its own send count | src/tests/test_packet_manager.py:54-61: with both keys set, `create_packet(b"Encrypted payload")` tags with counter 0, then `parse_packet` on the same object expects the tag for counter 1 and raises "MAC verification failed", unless HMAC-SHA256 gives both counters the same tag | a receive counter of its own, one per direction as section 6.4 of RFC 4253 keeps them, so that the tag is checked against the counter it was made with and the test gets its payload back | high; not executed | `PacketManager.LoopbackAsWritten` | `PacketManager.LoopbackIntended` |

## Left out

- src/network/socket_handler.py: the socket wrapper and its logging. The socket appears only as the call log and the received text.
- Transport errors (socket not connected, `socket.error`) propagate unchanged and are not modelled.
- main.py, src/config/config.py, src/utils/logger.py: wiring, environment loading and logging.
- src/session/session_manager.py, src/crypto/crypto_manager.py, src/auth/auth_manager.py: stubs whose bodies are `pass`.
- AES-CTR and HMAC-SHA256 internals: only their output lengths are fixed. Properties that need real cryptography are out of reach, for example that the ciphertext differs from the plaintext (src/tests/test_packet_manager.py:42).
- OpenFrame: it rejects every tag that differs from the recomputed one. It does not state that any flipped bit is detected, because that needs the collision resistance of HMAC.
- SetEncryption: does not model the key-size check the AES constructor performs, because that check belongs to the cryptography library.
- `os.urandom`: modelled as a function from a length to that many bytes. The length assertion at src/tests/test_packet_manager.py:43-45 holds only because its mock returns 32 bytes for any request.
- UTF-8 decoding at src/network/version_exchange.py:36: the received data arrives as already-decoded characters, so `UnicodeDecodeError` is not modelled.
- The real `receive(257)` never returns more than 257 bytes. The model accepts text of any length, as the tests' mocks supply.

=== FILE: packet_manager.dfy ===
/** The binary packet codec of `PacketManager` (section 6 of RFC 4253 as
    this client implements it): padding, framing, whole-frame stream
    encryption, a MAC over the sequence number and the encrypted frame, one
    shared sequence counter, and the KEXINIT payload with its name-lists.

    The object's mutable fields become a `PacketState` value threaded
    through pure functions; the library calls it makes (`os.urandom`, the
    AES-CTR encryptor, HMAC-SHA256) are fields of a `Primitives` value. */
module PacketManager {
  import opened Wrappers
  import opened Wire

  /** Bytes in an HMAC-SHA256 tag. */
  const MacLength: nat := 32

  /** SSH_MSG_KEXINIT, the first payload byte of a KEXINIT packet. */
  const KexinitMessage: byte := 20

  function Zeros(n: nat): (z: Bytes)
    ensures |z| == n
    ensures forall i :: 0 <= i < n ==> z[i] == 0
  {
    seq(n, _ => 0)
  }

  /** `os.urandom(n)`: some n bytes. */
  type RandomSource = f: nat -> Bytes | forall n: nat :: |f(n)| == n
    witness (n: nat) => Zeros(n)

  /** The first n bytes of the AES-CTR keystream for `key` with the all-zero
      initial counter block. Every encryptor and decryptor `PacketManager` makes
      starts at that same block, so the keystream depends on key and length only. */
  type KeystreamFn = f: (Bytes, nat) -> Bytes | forall key: Bytes, n: nat :: |f(key, n)| == n
    witness (key: Bytes, n: nat) => Zeros(n)

  /** HMAC-SHA256 of a message under a key: always a 32-byte digest. */
  type MacFn = f: (Bytes, Bytes) -> Bytes | forall key: Bytes, msg: Bytes :: |f(key, msg)| == MacLength
    witness (key: Bytes, msg: Bytes) => Zeros(MacLength)

  datatype Primitives = Primitives(urandom: RandomSource, keystream: KeystreamFn, hmac: MacFn)

  /** The exceptions the codec can raise. */
  datatype PacketError =
    | LengthOverflow        // struct.pack(">I", n) with a length n >= 2^32
    | SequenceOverflow      // struct.pack(">I", sequence_number) once the counter reaches 2^32
    | NonAsciiName          // UnicodeEncodeError from encoding a name-list as ASCII
    | MacMismatch           // ValueError("MAC verification failed")
    | TruncatedLength       // struct.unpack(">I", ...) given fewer than 4 bytes
    | MissingPaddingLength  // IndexError reading the padding-length byte

  /** The fields of a `PacketManager`: one counter shared by sending and
      receiving, and the two keys (`None` until `set_encryption`). The
      cipher object is determined by the encryption key and the fixed IV,
      so it is not a separate field. */
  datatype PacketState = PacketState(sequence: nat, encryptionKey: Option<Bytes>, macKey: Option<Bytes>)

  /** A freshly constructed `PacketManager`. */
  const Initial: PacketState := PacketState(0, None, None)

  /** Python truthiness of a key field: `None` and the empty key are both false. */
  predicate Enabled(key: Option<Bytes>) {
    key.Some? && |key.value| > 0
  }

  /** `set_encryption`: installs both keys and keeps the counter. */
  function SetEncryption(st: PacketState, encryptionKey: Bytes, macKey: Bytes): (st': PacketState)
    ensures st'.sequence == st.sequence
    ensures Enabled(st'.encryptionKey) <==> |encryptionKey| > 0
    ensures Enabled(st'.macKey) <==> |macKey| > 0
    ensures Enabled(st'.encryptionKey) ==> st'.encryptionKey.value == encryptionKey
    ensures Enabled(st'.macKey) ==> st'.macKey.value == macKey
  {
    st.(encryptionKey := Some(encryptionKey), macKey := Some(macKey))
  }

  /** One pass of a fresh encryptor or decryptor over `data` when the key is
      truthy, and the identity otherwise. */
  function Crypt(prims: Primitives, key: Option<Bytes>, data: Bytes): (r: Bytes)
    ensures |r| == |data|
    ensures !Enabled(key) ==> r == data
    ensures Enabled(key) ==> Xor(r, prims.keystream(key.value, |data|)) == data
  {
    if Enabled(key) then
      XorInvolutive(data, prims.keystream(key.value, |data|));
      Xor(data, prims.keystream(key.value, |data|))
    else data
  }

  /** Decrypting what was encrypted under the same key gives it back,
      because both passes use the same keystream. */
  lemma CryptInvolutive(prims: Primitives, key: Option<Bytes>, data: Bytes)
    ensures Crypt(prims, key, Crypt(prims, key, data)) == data
  {
  }

  /** Whether a payload of n bytes with p bytes of padding makes a frame
      whose length is a multiple of 8. */
  predicate Aligned(n: nat, p: nat) {
    (5 + n + p) % 8 == 0
  }

  /** The padding length `create_packet` picks for a payload of n bytes. */
  function PaddingLength(n: nat): (p: nat)
    ensures 4 <= p <= 11
    ensures (5 + n + p) % 8 == 0
    ensures forall q :: 4 <= q < p ==> !Aligned(n, q)
  {
    var p := 8 - (n + 5) % 8;
    var r := if p < 4 then p + 8 else p;
    assert Aligned(n, r);
    forall q | 4 <= q < r ensures !Aligned(n, q) {
      AlignedGap(n, r, q);
    }
    r
  }

  /** Two paddings less than 8 apart cannot both align the frame. */
  lemma AlignedGap(n: nat, p: nat, q: nat)
    requires Aligned(n, p) && q < p < q + 8
    ensures !Aligned(n, q)
  {
  }

  /** The byte positions of a plaintext frame carrying `payload` and
      `padding`: length field, padding-length byte, payload, padding. */
  predicate FrameLayout(frame: Bytes, payload: Bytes, padding: Bytes) {
    && |frame| == 5 + |payload| + |padding|
    && Be32Value(frame[..4]) == |frame| - 4
    && frame[4] == |padding|
    && frame[5..5 + |payload|] == payload
    && frame[5 + |payload|..] == padding
  }

  function Frame(payload: Bytes, padding: Bytes): (frame: Bytes)
    requires |payload| + |padding| + 1 < TwoTo32
    requires |padding| < 0x100
    ensures FrameLayout(frame, payload, padding)
  {
    var head := Be32(|payload| + |padding| + 1) + [|padding|];
    assert (head + payload + padding)[..4] == head[..4];
    head + payload + padding
  }

  /** Whether the counter can be packed into 4 bytes when a MAC needs it. */
  predicate CounterPackable(st: PacketState) {
    Enabled(st.macKey) ==> st.sequence < TwoTo32
  }

  /** Whether `create_packet` gets through both `struct.pack` calls. */
  predicate CreateFits(st: PacketState, payloadLength: nat) {
    payloadLength + PaddingLength(payloadLength) + 1 < TwoTo32 && CounterPackable(st)
  }

  /** The tag over the counter and the (possibly encrypted) frame. */
  function Tag(prims: Primitives, st: PacketState, sealed: Bytes): (t: Bytes)
    requires Enabled(st.macKey) && st.sequence < TwoTo32
    ensures |t| == MacLength
  {
    prims.hmac(st.macKey.value, Be32(st.sequence) + sealed)
  }

  /** The last steps of `create_packet`: encrypt the whole frame when the
      encryption key is truthy, then append the tag over the counter and the
      encrypted frame when the MAC key is truthy. */
  function Seal(prims: Primitives, st: PacketState, frame: Bytes): (packet: Bytes)
    requires CounterPackable(st)
    ensures |packet| == |frame| + (if Enabled(st.macKey) then MacLength else 0)
    ensures Crypt(prims, st.encryptionKey, packet[..|frame|]) == frame
    ensures Enabled(st.macKey) ==>
      packet[|frame|..] == prims.hmac(st.macKey.value, Be32(st.sequence) + packet[..|frame|])
  {
    var sealed := Crypt(prims, st.encryptionKey, frame);
    CryptInvolutive(prims, st.encryptionKey, frame);
    if Enabled(st.macKey) then
      var packet := sealed + Tag(prims, st, sealed);
      assert packet[..|frame|] == sealed;
      packet
    else
      assert sealed[..|frame|] == sealed;
      sealed
  }

  datatype Created = Created(packet: Bytes, state: PacketState)

  /** `create_packet`. On success the first 5 + |payload| + padding bytes
      are the frame, passed through the cipher when the encryption key is
      truthy, followed by a tag computed with the counter's value before the
      increment when the MAC key is truthy. */
  function CreatePacket(prims: Primitives, st: PacketState, payload: Bytes): (r: Result<Created, PacketError>)
    ensures r.Success? <==> CreateFits(st, |payload|)
    ensures r == Failure(LengthOverflow) <==> |payload| + PaddingLength(|payload|) + 1 >= TwoTo32
    ensures r == Failure(SequenceOverflow) <==> |payload| + PaddingLength(|payload|) + 1 < TwoTo32 && !CounterPackable(st)
    ensures r.Success? ==>
      var padLen := PaddingLength(|payload|);
      var n := 5 + |payload| + padLen;
      && |r.value.packet| == n + (if Enabled(st.macKey) then MacLength else 0)
      && FrameLayout(Crypt(prims, st.encryptionKey, r.value.packet[..n]), payload, prims.urandom(padLen))
      && (Enabled(st.macKey) ==>
            r.value.packet[n..] == prims.hmac(st.macKey.value, Be32(st.sequence) + r.value.packet[..n]))
      && r.value.state.sequence == st.sequence + 1
      && r.value.state.encryptionKey == st.encryptionKey
      && r.value.state.macKey == st.macKey
  {
    var padLen := PaddingLength(|payload|);
    var padding := prims.urandom(padLen);
    if |payload| + padLen + 1 >= TwoTo32 then Failure(LengthOverflow)
    else if !CounterPackable(st) then Failure(SequenceOverflow)
    else Success(Created(Seal(prims, st, Frame(payload, padding)), st.(sequence := st.sequence + 1)))
  }

  /** What `parse_packet` keeps of its input once the MAC is split off:
      `data[:-32]` when the MAC key is truthy, all of `data` otherwise. */
  function Body(st: PacketState, data: Bytes): (body: Bytes)
    ensures Enabled(st.macKey) && |data| >= MacLength ==> body == data[..|data| - MacLength]
    ensures Enabled(st.macKey) && |data| < MacLength ==> body == []
    ensures !Enabled(st.macKey) ==> body == data
  {
    if Enabled(st.macKey) then PySlice(data, 0, -(MacLength as int)) else data
  }

  /** Whether the MAC step of `parse_packet` lets `data` through: always
      when the MAC key is falsy; otherwise the counter packs into four
      bytes, there are 32 bytes to split off, and they equal the HMAC of the
      counter and the rest. */
  predicate TagAccepted(prims: Primitives, st: PacketState, data: Bytes) {
    Enabled(st.macKey) ==>
      && st.sequence < TwoTo32
      && |data| >= MacLength
      && data[|data| - MacLength..] == prims.hmac(st.macKey.value, Be32(st.sequence) + data[..|data| - MacLength])
  }

  /** The first steps of `parse_packet`, shared by the as-written and the
      corrected payload extraction: verify the tag, decrypt, and check that
      the length field and padding-length byte can be read. The result is
      the decrypted frame. */
  function OpenFrame(prims: Primitives, st: PacketState, data: Bytes): (r: Result<Bytes, PacketError>)
    ensures Enabled(st.macKey) && st.sequence >= TwoTo32 ==> r == Failure(SequenceOverflow)
    ensures Enabled(st.macKey) && st.sequence < TwoTo32 && |data| >= MacLength ==>
      (r == Failure(MacMismatch) <==>
         data[|data| - MacLength..] != prims.hmac(st.macKey.value, Be32(st.sequence) + data[..|data| - MacLength]))
    ensures Enabled(st.macKey) && st.sequence < TwoTo32 && |data| < MacLength ==> r == Failure(MacMismatch)
    ensures !Enabled(st.macKey) ==> r != Failure(MacMismatch) && r != Failure(SequenceOverflow)
    ensures r.Success? <==> TagAccepted(prims, st, data) && |Body(st, data)| >= 5
    ensures r == Failure(TruncatedLength) <==> TagAccepted(prims, st, data) && |Body(st, data)| < 4
    ensures r == Failure(MissingPaddingLength) <==> TagAccepted(prims, st, data) && |Body(st, data)| == 4
    ensures r.Success? ==> r.value == Crypt(prims, st.encryptionKey, Body(st, data)) && |r.value| >= 5
  {
    var body := Body(st, data);
    if Enabled(st.macKey) && st.sequence >= TwoTo32 then Failure(SequenceOverflow)
    else if Enabled(st.macKey) && PySlice(data, -(MacLength as int), |data|) != Tag(prims, st, body) then
      Failure(MacMismatch)
    else
      var frame := Crypt(prims, st.encryptionKey, body);
      if |frame| < 4 then Failure(TruncatedLength)
      else if |frame| < 5 then Failure(MissingPaddingLength)
      else Success(frame)
  }

  datatype Parsed = Parsed(payload: Bytes, state: PacketState)

  /** `payload` is what Python's `frame[5:stop]` holds: the bytes from 5 up
      to `stop`, with `stop` clamped to the frame's end, a negative `stop`
      counted back from the end, and nothing when the end falls at or
      before byte 5. */
  predicate SliceFromFive(frame: Bytes, stop: int, payload: Bytes)
    requires |frame| >= 5
  {
    && (5 <= stop <= |frame| ==> payload == frame[5..stop])
    && (stop > |frame| ==> payload == frame[5..])
    && (0 <= stop <= 5 ==> payload == [])
    && (stop < 0 && 5 <= |frame| + stop ==> payload == frame[5..|frame| + stop])
    && (stop < 0 && |frame| + stop < 5 ==> payload == [])
  }

  /** `PySlice` from byte 5 is the slice `SliceFromFive` describes. */
  lemma PySliceFromFive(frame: Bytes, stop: int)
    requires |frame| >= 5
    ensures SliceFromFive(frame, stop, PySlice(frame, 5, stop))
  {
  }

  /** `parse_packet` as written: the payload is `frame[5 : packet_length -
      padding_length]` under Python's slicing rules. */
  function ParsePacket(prims: Primitives, st: PacketState, data: Bytes): (r: Result<Parsed, PacketError>)
    ensures r.Success? <==> OpenFrame(prims, st, data).Success?
    ensures r.Failure? ==> r.error == OpenFrame(prims, st, data).error
    ensures r.Success? ==>
      var frame := OpenFrame(prims, st, data).value;
      && 5 + |r.value.payload| <= |frame|
      && r.value.payload == frame[5..5 + |r.value.payload|]
      && SliceFromFive(frame, Be32Value(frame[..4]) - frame[4], r.value.payload)
      && r.value.state == st.(sequence := st.sequence + 1)
  {
    match OpenFrame(prims, st, data)
    case Failure(e) => Failure(e)
    case Success(frame) =>
      var packetLength := Be32Value(frame[..4]);
      PySliceFromFive(frame, packetLength - frame[4]);
      Success(Parsed(PySlice(frame, 5, packetLength - frame[4]), st.(sequence := st.sequence + 1)))
  }

  /** `parse_packet` with the slice end the length field implies,
      `4 + packet_length - padding_length`, so that the payload's last four
      bytes are kept. */
  function ParsePacketIntended(prims: Primitives, st: PacketState, data: Bytes): (r: Result<Parsed, PacketError>)
    ensures r.Success? <==> OpenFrame(prims, st, data).Success?
    ensures r.Failure? ==> r.error == OpenFrame(prims, st, data).error
    ensures r.Success? ==>
      var frame := OpenFrame(prims, st, data).value;
      && 5 + |r.value.payload| <= |frame|
      && r.value.payload == frame[5..5 + |r.value.payload|]
      && SliceFromFive(frame, 4 + Be32Value(frame[..4]) - frame[4], r.value.payload)
      && r.value.state == st.(sequence := st.sequence + 1)
  {
    match OpenFrame(prims, st, data)
    case Failure(e) => Failure(e)
    case Success(frame) =>
      var packetLength := Be32Value(frame[..4]);
      PySliceFromFive(frame, 4 + packetLength - frame[4]);
      Success(Parsed(PySlice(frame, 5, 4 + packetLength - frame[4]), st.(sequence := st.sequence + 1)))
  }

  /** What the as-written parser returns for a payload of n bytes: all but
      the last four. */
  function Shortened(payload: Bytes): Bytes {
    if |payload| >= 4 then payload[..|payload| - 4] else []
  }

  /** Opening what `Seal` produced under the same state gives the frame
      back: the tag verifies and decryption undoes encryption. */
  lemma OpenSeal(prims: Primitives, st: PacketState, frame: Bytes)
    requires CounterPackable(st) && |frame| >= 5
    ensures OpenFrame(prims, st, Seal(prims, st, frame)) == Success(frame)
  {
    var packet := Seal(prims, st, frame);
    var n := |frame|;
    assert Body(st, packet) == packet[..n];
    if Enabled(st.macKey) {
      assert PySlice(packet, -(MacLength as int), |packet|) == packet[n..];
    }
  }

  /** A created packet opens, under the state that created it, to a frame
      carrying the payload and the padding drawn for it. */
  lemma OpenCreated(prims: Primitives, st: PacketState, payload: Bytes)
    requires CreatePacket(prims, st, payload).Success?
    ensures
      var padLen := PaddingLength(|payload|);
      var packet := CreatePacket(prims, st, payload).value.packet;
      OpenFrame(prims, st, packet).Success? &&
      FrameLayout(OpenFrame(prims, st, packet).value, payload, prims.urandom(padLen))
  {
    OpenSeal(prims, st, Frame(payload, prims.urandom(PaddingLength(|payload|))));
  }

  /** Round trip of the code as written: a receiver whose keys and counter
      equal the sender's gets the payload back without its last four bytes,
      and both counters advance by one. */
  lemma RoundTrip(prims: Primitives, st: PacketState, payload: Bytes)
    requires CreatePacket(prims, st, payload).Success?
    ensures
      var c := CreatePacket(prims, st, payload).value;
      ParsePacket(prims, st, c.packet) == Success(Parsed(Shortened(payload), c.state))
  {
    var c := CreatePacket(prims, st, payload).value;
    OpenCreated(prims, st, payload);
    var frame := OpenFrame(prims, st, c.packet).value;
    ExtractAsWritten(frame, payload, prims.urandom(PaddingLength(|payload|)));
    ParseOpened(prims, st, c.packet);
  }

  lemma ParseOpened(prims: Primitives, st: PacketState, data: Bytes)
    requires OpenFrame(prims, st, data).Success?
    ensures
      var frame := OpenFrame(prims, st, data).value;
      ParsePacket(prims, st, data)
        == Success(Parsed(PySlice(frame, 5, Be32Value(frame[..4]) - frame[4]), st.(sequence := st.sequence + 1)))
  {
  }

  /** The as-written slice end lands four bytes before the end of the payload. */
  lemma ExtractAsWritten(frame: Bytes, payload: Bytes, padding: Bytes)
    requires FrameLayout(frame, payload, padding)
    ensures PySlice(frame, 5, Be32Value(frame[..4]) - frame[4]) == Shortened(payload)
  {
    assert Be32Value(frame[..4]) - frame[4] == |payload| + 1;
    if |payload| >= 4 {
      assert frame[5..|payload| + 1] == frame[5..5 + |payload|][..|payload| - 4];
    } else {
      assert PyBound(|payload| + 1, |frame|) < 5;
    }
  }

  /** The gap between the code and its test: every non-empty payload comes
      back different from what was sent. */
  lemma RoundTripLosesPayload(prims: Primitives, st: PacketState, payload: Bytes)
    requires CreatePacket(prims, st, payload).Success?
    requires |payload| > 0
    ensures
      var c := CreatePacket(prims, st, payload).value;
      ParsePacket(prims, st, c.packet).Success? &&
      ParsePacket(prims, st, c.packet).value.payload != payload
  {
    RoundTrip(prims, st, payload);
  }

  /** Round trip of the corrected parser: the payload comes back whole. */
  lemma RoundTripIntended(prims: Primitives, st: PacketState, payload: Bytes)
    requires CreatePacket(prims, st, payload).Success?
    ensures
      var c := CreatePacket(prims, st, payload).value;
      ParsePacketIntended(prims, st, c.packet) == Success(Parsed(payload, c.state))
  {
    var c := CreatePacket(prims, st, payload).value;
    OpenCreated(prims, st, payload);
    var frame := OpenFrame(prims, st, c.packet).value;
    assert 4 + Be32Value(frame[..4]) - frame[4] == 5 + |payload|;
  }

  /** With no MAC key, three calls — two `create_packet` and a
      `parse_packet` of the second packet — leave the shared counter three
      higher. */
  lemma CounterAfterCreateCreateParse(prims: Primitives, st: PacketState, first: Bytes, second: Bytes)
    requires !Enabled(st.macKey)
    requires |first| < 0x8000_0000 && |second| < 0x8000_0000
    ensures CreatePacket(prims, st, first).Success?
    ensures
      var s1 := CreatePacket(prims, st, first).value.state;
      && CreatePacket(prims, s1, second).Success?
      && var c2 := CreatePacket(prims, s1, second).value;
      && ParsePacket(prims, c2.state, c2.packet).Success?
      && ParsePacket(prims, c2.state, c2.packet).value.state.sequence == st.sequence + 3
  {
    assert CreateFits(st, |first|);
    var s1 := CreatePacket(prims, st, first).value.state;
    assert CreateFits(s1, |second|);
    var c2 := CreatePacket(prims, s1, second).value;
    assert !Enabled(c2.state.macKey) && |c2.packet| >= 5;
    assert OpenFrame(prims, c2.state, c2.packet).Success?;
  }

  /** The keyless round trip on one fresh object: the counter value does
      not matter without a MAC key, so the object gets back the payload
      without its last four bytes, and its counter ends at 2. */
  lemma FreshObjectLoopback(prims: Primitives, payload: Bytes)
    requires |payload| < 0x8000_0000
    ensures CreatePacket(prims, Initial, payload).Success?
    ensures
      var c := CreatePacket(prims, Initial, payload).value;
      ParsePacket(prims, c.state, c.packet) == Success(Parsed(Shortened(payload), Initial.(sequence := 2)))
  {
    assert CreateFits(Initial, |payload|);
    RoundTrip(prims, Initial, payload);
    var c := CreatePacket(prims, Initial, payload).value;
    assert OpenFrame(prims, c.state, c.packet) == OpenFrame(prims, Initial, c.packet);
    ParseOpened(prims, Initial, c.packet);
    ParseOpened(prims, c.state, c.packet);
  }

  /** Parsing a packet on the object that just created it: the tag was
      computed with the counter before the increment and is checked against
      the counter after it, so with a MAC key the packet is accepted exactly
      when HMAC gives the same tag for both counter values. */
  lemma LoopbackAsWritten(prims: Primitives, st: PacketState, payload: Bytes)
    requires CreatePacket(prims, st, payload).Success?
    requires Enabled(st.macKey) && st.sequence + 1 < TwoTo32
    ensures
      var c := CreatePacket(prims, st, payload).value;
      var n := |c.packet| - MacLength;
      ParsePacket(prims, c.state, c.packet).Success? <==>
        prims.hmac(st.macKey.value, Be32(st.sequence + 1) + c.packet[..n])
          == prims.hmac(st.macKey.value, Be32(st.sequence) + c.packet[..n])
  {
    var frame := Frame(payload, prims.urandom(PaddingLength(|payload|)));
    OpenSealNextCounter(prims, st, frame);
  }

  /** A sealed frame opened under the next counter value passes the MAC
      step exactly when the tag for that value equals the tag it carries. */
  lemma OpenSealNextCounter(prims: Primitives, st: PacketState, frame: Bytes)
    requires Enabled(st.macKey) && st.sequence + 1 < TwoTo32 && |frame| >= 5
    ensures
      var packet := Seal(prims, st, frame);
      OpenFrame(prims, st.(sequence := st.sequence + 1), packet).Success? <==>
        prims.hmac(st.macKey.value, Be32(st.sequence + 1) + packet[..|frame|])
          == prims.hmac(st.macKey.value, Be32(st.sequence) + packet[..|frame|])
  {
    var packet := Seal(prims, st, frame);
    var next := st.(sequence := st.sequence + 1);
    assert |packet| - MacLength == |frame|;
    assert Body(next, packet) == packet[..|frame|];
  }

  /** An endpoint with one counter per direction, as section 6.4 of RFC
      4253 keeps them: `outbound` holds the keys and the send counter,
      `inboundSequence` counts the packets received. */
  datatype Endpoint = Endpoint(outbound: PacketState, inboundSequence: nat)

  /** `create_packet` on an endpoint: only the send counter moves. */
  function SendOn(prims: Primitives, e: Endpoint, payload: Bytes): (r: Result<(Bytes, Endpoint), PacketError>)
    ensures r.Success? <==> CreateFits(e.outbound, |payload|)
    ensures r.Success? ==>
      && r.value.1.outbound == e.outbound.(sequence := e.outbound.sequence + 1)
      && r.value.1.inboundSequence == e.inboundSequence
  {
    match CreatePacket(prims, e.outbound, payload)
    case Failure(err) => Failure(err)
    case Success(c) => Success((c.packet, Endpoint(c.state, e.inboundSequence)))
  }

  /** The corrected `parse_packet` on an endpoint: the tag is checked
      against the receive counter, and only that counter moves. */
  function ReceiveOn(prims: Primitives, e: Endpoint, data: Bytes): (r: Result<(Bytes, Endpoint), PacketError>)
    ensures r.Success? <==> OpenFrame(prims, e.outbound.(sequence := e.inboundSequence), data).Success?
    ensures r.Failure? ==> r.error == OpenFrame(prims, e.outbound.(sequence := e.inboundSequence), data).error
    ensures r.Success? ==>
      && r.value.1.outbound == e.outbound
      && r.value.1.inboundSequence == e.inboundSequence + 1
  {
    match ParsePacketIntended(prims, e.outbound.(sequence := e.inboundSequence), data)
    case Failure(err) => Failure(err)
    case Success(p) => Success((p.payload, Endpoint(e.outbound, p.state.sequence)))
  }

  /** With per-direction counters, an endpoint that receives the packet it
      just sent (both counters starting equal, as on a fresh object) gets
      the payload back whatever the keys, and each counter moves once. */
  lemma LoopbackIntended(prims: Primitives, e: Endpoint, payload: Bytes)
    requires CreateFits(e.outbound, |payload|)
    requires e.inboundSequence == e.outbound.sequence
    ensures SendOn(prims, e, payload).Success?
    ensures
      var sent := SendOn(prims, e, payload).value;
      ReceiveOn(prims, sent.1, sent.0)
        == Success((payload, Endpoint(sent.1.outbound, e.inboundSequence + 1)))
  {
    RoundTripIntended(prims, e.outbound, payload);
    var c := CreatePacket(prims, e.outbound, payload).value;
    assert c.state.(sequence := e.inboundSequence) == e.outbound;
  }

  /** Without either key the packet is the bare frame: the length field
      counts every byte after itself, byte 4 is the padding length, and the
      payload follows it unchanged. */
  lemma PlainPacketLayout(prims: Primitives, st: PacketState, payload: Bytes)
    requires !Enabled(st.encryptionKey) && !Enabled(st.macKey)
    requires CreatePacket(prims, st, payload).Success?
    ensures
      var packet := CreatePacket(prims, st, payload).value.packet;
      && |packet| == 5 + |payload| + PaddingLength(|payload|)
      && Be32Value(packet[..4]) == |packet| - 4
      && 4 <= packet[4] <= 11
      && packet[5..5 + |payload|] == payload
  {
    var packet := CreatePacket(prims, st, payload).value.packet;
    assert packet[..|packet|] == packet;
    PayloadInClear(prims, st, payload);
  }

  /** Without an encryption key the payload sits in the clear at offset 5. */
  lemma PayloadInClear(prims: Primitives, st: PacketState, payload: Bytes)
    requires !Enabled(st.encryptionKey)
    requires CreatePacket(prims, st, payload).Success?
    ensures
      var packet := CreatePacket(prims, st, payload).value.packet;
      5 + |payload| <= |packet| && packet[5..5 + |payload|] == payload
  {
    var packet := CreatePacket(prims, st, payload).value.packet;
    var n := 5 + |payload| + PaddingLength(|payload|);
    assert packet[..n][5..5 + |payload|] == packet[5..5 + |payload|];
  }

  // ---------------------------------------------------------------------
  // Name-lists (section 5 of RFC 4251) and the KEXINIT payload

  /** `",".join(names)`. */
  function Join(names: seq<string>): (s: string)
    ensures IsAscii(s) <==> forall i :: 0 <= i < |names| ==> IsAscii(names[i])
    ensures |names| > 0 ==> |names[0]| <= |s| && s[..|names[0]|] == names[0]
  {
    if |names| == 0 then ""
    else if |names| == 1 then names[0]
    else
      var rest := Join(names[1..]);
      AsciiConcat(names[0] + ",", rest);
      AsciiConcat(names[0], ",");
      assert forall i :: 1 <= i < |names| ==> names[i] == names[1..][i - 1];
      assert (names[0] + "," + rest)[..|names[0]|] == names[0];
      names[0] + "," + rest
  }

  /** Appending a name to the list appends it to the text, behind a comma
      unless the list was empty; this pins `Join` for every input, empty and
      comma-bearing names included. */
  lemma {:induction false} JoinSnoc(names: seq<string>, n: string)
    ensures Join(names + [n]) == if names == [] then n else Join(names) + "," + n
  {
    if |names| > 1 {
      assert (names + [n])[1..] == names[1..] + [n];
      JoinSnoc(names[1..], n);
    } else if |names| == 1 {
      assert (names + [n])[1..] == [n];
    }
  }

  /** `_create_name_list`: the joined names encoded as ASCII behind their
      big-endian byte count. */
  function CreateNameList(names: seq<string>): (r: Result<Bytes, PacketError>)
    ensures r.Success? <==> IsAscii(Join(names)) && |Join(names)| < TwoTo32
    ensures !IsAscii(Join(names)) ==> r == Failure(NonAsciiName)
    ensures IsAscii(Join(names)) && |Join(names)| >= TwoTo32 ==> r == Failure(LengthOverflow)
    ensures r.Success? ==>
      && |r.value| == 4 + |Join(names)|
      && Be32Value(r.value[..4]) == |Join(names)|
      && AsciiText(r.value[4..]) == Join(names)
  {
    var text := Join(names);
    if !IsAscii(text) then Failure(NonAsciiName)
    else if |text| >= TwoTo32 then Failure(LengthOverflow)
    else
      AsciiRoundTrip(text);
      Success(Be32(|text|) + AsciiBytes(text))
  }

  /** An empty list encodes as four zero bytes. */
  lemma EmptyNameList()
    ensures CreateNameList([]) == Success([0, 0, 0, 0])
  {
    assert Join([]) == "";
    assert IsAscii("");
    assert AsciiBytes("") == [];
    Be32OfValue([0, 0, 0, 0]);
    assert Be32Value([0, 0, 0, 0]) == 0;
    assert Be32(0) + AsciiBytes("") == [0, 0, 0, 0];
  }

  /** The index of the first comma in `s`, or |s| when there is none. */
  function CommaIndex(s: string): (i: nat)
    ensures i <= |s|
    ensures i < |s| ==> s[i] == ','
    ensures forall j :: 0 <= j < i ==> s[j] != ','
  {
    if |s| == 0 || s[0] == ',' then 0 else 1 + CommaIndex(s[1..])
  }

  /** The comma-separated fields of `s`. */
  function SplitFields(s: string): (fields: seq<string>)
    ensures |fields| > 0
    decreases |s|
  {
    var i := CommaIndex(s);
    if i == |s| then [s] else [s[..i]] + SplitFields(s[i + 1..])
  }

  /** Reads a name-list's text back into names; the empty text is the empty list. */
  function SplitNames(s: string): seq<string> {
    if s == "" then [] else SplitFields(s)
  }

  /** A name a name-list can carry unambiguously: non-empty, without commas. */
  predicate WellFormedName(name: string) {
    |name| > 0 && forall i :: 0 <= i < |name| ==> name[i] != ','
  }

  predicate WellFormedNames(names: seq<string>) {
    forall i :: 0 <= i < |names| ==> WellFormedName(names[i])
  }

  lemma {:induction false} SplitJoin(names: seq<string>)
    requires |names| > 0 && WellFormedNames(names)
    ensures SplitFields(Join(names)) == names
  {
    var name := names[0];
    if |names| == 1 {
      assert CommaIndex(name) == |name|;
    } else {
      var rest := Join(names[1..]);
      assert Join(names) == name + "," + rest;
      SplitAfterName(name, rest);
      assert WellFormedNames(names[1..]) by {
        forall i | 0 <= i < |names| - 1 ensures WellFormedName(names[1..][i]) {
          assert names[1..][i] == names[i + 1];
        }
      }
      SplitJoin(names[1..]);
      assert [name] + names[1..] == names;
    }
  }

  /** A well-formed name followed by a comma is the first field. */
  lemma SplitAfterName(name: string, rest: string)
    requires WellFormedName(name)
    ensures SplitFields(name + "," + rest) == [name] + SplitFields(rest)
  {
    var s := name + "," + rest;
    assert s[..|name|] == name && s[|name|] == ',';
    assert CommaIndex(s) == |name|;
    assert s[|name| + 1..] == rest;
  }

  /** Decodes one name-list from the front of `b`, returning the names and
      the bytes after it. */
  function ParseNameList(b: Bytes): (r: Option<(seq<string>, Bytes)>)
    ensures r.Some? ==> |r.value.1| < |b|
  {
    if |b| < 4 then None
    else
      var n := Be32Value(b[..4]);
      if |b| - 4 < n then None
      else Some((SplitNames(AsciiText(b[4..4 + n])), b[4 + n..]))
  }

  /** Decoding an encoded name-list of well-formed names gives the names
      back and leaves whatever followed it. */
  lemma NameListRoundTrip(names: seq<string>, rest: Bytes)
    requires WellFormedNames(names)
    requires CreateNameList(names).Success?
    ensures ParseNameList(CreateNameList(names).value + rest) == Some((names, rest))
  {
    var enc := CreateNameList(names).value;
    var b := enc + rest;
    var text := Join(names);
    assert b[..4] == enc[..4];
    assert b[4..4 + |text|] == enc[4..];
    assert b[4 + |text|..] == rest;
    if names == [] {
      assert text == "";
    } else {
      assert |text| > 0 by {
        if |names| > 1 { assert text == names[0] + "," + Join(names[1..]); }
      }
      SplitJoin(names);
    }
  }

  /** Each list's encoding, in order, when every list encodes. */
  function Encodings(lists: seq<seq<string>>): seq<Bytes>
    requires forall i :: 0 <= i < |lists| ==> CreateNameList(lists[i]).Success?
  {
    seq(|lists|, i requires 0 <= i < |lists| => CreateNameList(lists[i]).value)
  }

  /** The name-lists of `lists`, encoded one after another; the first list
      that fails to encode decides the error. */
  function NameLists(lists: seq<seq<string>>): (r: Result<Bytes, PacketError>)
    ensures r.Success? <==> forall i :: 0 <= i < |lists| ==> CreateNameList(lists[i]).Success?
    ensures r.Success? ==> |r.value| >= 4 * |lists|
    ensures r.Success? ==> r.value == Concat(Encodings(lists))
  {
    if lists == [] then Success([])
    else
      match CreateNameList(lists[0])
      case Failure(e) => Failure(e)
      case Success(head) =>
        match NameLists(lists[1..])
        case Failure(e) => Failure(e)
        case Success(tail) =>
          assert Encodings(lists)[1..] == Encodings(lists[1..]);
          Success(head + tail)
  }

  /** A failing `NameLists` reports the error of the first list that does
      not encode; every list before it encodes. */
  lemma {:induction false} NameListsError(lists: seq<seq<string>>)
    requires NameLists(lists).Failure?
    ensures exists i :: (&& 0 <= i < |lists|
                         && CreateNameList(lists[i]) == Failure(NameLists(lists).error)
                         && forall j :: 0 <= j < i ==> CreateNameList(lists[j]).Success?)
  {
    if CreateNameList(lists[0]).Success? {
      NameListsError(lists[1..]);
      var i :| && 0 <= i < |lists[1..]|
               && CreateNameList(lists[1..][i]) == Failure(NameLists(lists[1..]).error)
               && forall j :: 0 <= j < i ==> CreateNameList(lists[1..][j]).Success?;
      assert lists[1..][i] == lists[i + 1];
      assert forall j :: 1 <= j < i + 1 ==> lists[1..][j - 1] == lists[j];
      assert CreateNameList(lists[i + 1]) == Failure(NameLists(lists).error);
    } else {
      assert CreateNameList(lists[0]) == Failure(NameLists(lists).error);
    }
  }

  /** Decodes `count` consecutive name-lists. */
  function ParseNameLists(b: Bytes, count: nat): (r: Option<(seq<seq<string>>, Bytes)>)
    ensures r.Some? ==> |r.value.0| == count
    decreases count
  {
    if count == 0 then Some(([], b))
    else
      match ParseNameList(b)
      case None => None
      case Some((names, rest)) =>
        match ParseNameLists(rest, count - 1)
        case None => None
        case Some((more, tail)) => Some(([names] + more, tail))
  }

  /** The encodings of a non-empty sequence of lists: the first list's,
      then the rest's. */
  lemma NameListsCons(lists: seq<seq<string>>)
    requires |lists| > 0 && NameLists(lists).Success?
    ensures NameLists(lists[1..]).Success?
    ensures NameLists(lists).value == CreateNameList(lists[0]).value + NameLists(lists[1..]).value
  {
  }

  lemma {:induction false} NameListsRoundTrip(lists: seq<seq<string>>, rest: Bytes)
    requires forall i :: 0 <= i < |lists| ==> WellFormedNames(lists[i])
    requires NameLists(lists).Success?
    ensures ParseNameLists(NameLists(lists).value + rest, |lists|) == Some((lists, rest))
  {
    if lists == [] {
      assert NameLists(lists).value + rest == rest;
    } else {
      var more := lists[1..];
      NameListsCons(lists);
      var head := CreateNameList(lists[0]).value;
      var tail := NameLists(more).value;
      var b := NameLists(lists).value + rest;
      assert b == head + (tail + rest);
      NameListRoundTrip(lists[0], tail + rest);
      assert forall i :: 0 <= i < |more| ==> more[i] == lists[i + 1];
      NameListsRoundTrip(more, rest);
      ParseNameListsCons(b, |lists|, lists[0], tail + rest, more, rest);
      HeadTail(lists);
    }
  }

  /** A non-empty sequence is its first element followed by the rest. */
  lemma HeadTail<T>(s: seq<T>)
    requires |s| > 0
    ensures [s[0]] + s[1..] == s
  {
  }

  /** One step of `ParseNameLists`: the first list, then the others. */
  lemma ParseNameListsCons(b: Bytes, count: nat, names: seq<string>, after: Bytes, more: seq<seq<string>>, tail: Bytes)
    requires count > 0
    requires ParseNameList(b) == Some((names, after))
    requires ParseNameLists(after, count - 1) == Some((more, tail))
    ensures ParseNameLists(b, count) == Some(([names] + more, tail))
  {
  }

  /** The ten name-list arguments of `create_kexinit_packet`. */
  datatype KexinitLists = KexinitLists(
    kexAlgorithms: seq<string>,
    serverHostKeyAlgorithms: seq<string>,
    encryptionClientToServer: seq<string>,
    encryptionServerToClient: seq<string>,
    macClientToServer: seq<string>,
    macServerToClient: seq<string>,
    compressionClientToServer: seq<string>,
    compressionServerToClient: seq<string>,
    languagesClientToServer: seq<string>,
    languagesServerToClient: seq<string>)

  /** The lists in argument order. */
  function InOrder(k: KexinitLists): seq<seq<string>> {
    [k.kexAlgorithms, k.serverHostKeyAlgorithms,
     k.encryptionClientToServer, k.encryptionServerToClient,
     k.macClientToServer, k.macServerToClient,
     k.compressionClientToServer, k.compressionServerToClient,
     k.languagesClientToServer, k.languagesServerToClient]
  }

  /** The KEXINIT payload: message number 20, the cookie, the ten
      name-lists, a zero `first_kex_packet_follows` byte and four reserved
      zero bytes. The cookie is not checked. */
  function KexinitPayload(cookie: Bytes, k: KexinitLists): (r: Result<Bytes, PacketError>)
    ensures r.Success? <==> forall i :: 0 <= i < 10 ==> CreateNameList(InOrder(k)[i]).Success?
    ensures r.Failure? ==> NameLists(InOrder(k)) == Failure(r.error)
    ensures r.Success? ==>
      && |r.value| >= 1 + |cookie| + 40 + 5
      && r.value[0] == KexinitMessage
      && r.value[1..1 + |cookie|] == cookie
      && NameLists(InOrder(k)).Success?
      && r.value[1 + |cookie|..|r.value| - 5] == NameLists(InOrder(k)).value
      && r.value[|r.value| - 5..] == Zeros(5)
  {
    match NameLists(InOrder(k))
    case Failure(e) => Failure(e)
    case Success(lists) =>
      var payload := [KexinitMessage] + cookie + lists + [0] + [0, 0, 0, 0];
      assert payload[1..1 + |cookie|] == cookie;
      assert payload[1 + |cookie|..|payload| - 5] == lists;
      assert payload[|payload| - 5..] == Zeros(5);
      Success(payload)
  }

  /** A decoded KEXINIT payload. */
  datatype Kexinit = Kexinit(cookie: Bytes, lists: seq<seq<string>>, firstKexPacketFollows: byte, reserved: Bytes)

  /** Reads a KEXINIT payload with a 16-byte cookie. */
  function ParseKexinitPayload(b: Bytes): (r: Option<Kexinit>)
    ensures r.Some? ==> |b| >= 17 && b[0] == KexinitMessage && |r.value.cookie| == 16 && |r.value.lists| == 10
  {
    if |b| < 17 || b[0] != KexinitMessage then None
    else
      match ParseNameLists(b[17..], 10)
      case None => None
      case Some((lists, tail)) =>
        if |tail| != 5 then None
        else Some(Kexinit(b[1..17], lists, tail[0], tail[1..]))
  }

  /** With a 16-byte cookie and well-formed names, the payload decodes to
      the cookie, the ten lists in argument order and the zero trailer. */
  lemma KexinitPayloadRoundTrip(cookie: Bytes, k: KexinitLists)
    requires |cookie| == 16
    requires forall i :: 0 <= i < 10 ==> WellFormedNames(InOrder(k)[i])
    requires KexinitPayload(cookie, k).Success?
    ensures ParseKexinitPayload(KexinitPayload(cookie, k).value) == Some(Kexinit(cookie, InOrder(k), 0, [0, 0, 0, 0]))
  {
    var payload := KexinitPayload(cookie, k).value;
    var lists := NameLists(InOrder(k)).value;
    var trailer: Bytes := [0, 0, 0, 0, 0];
    assert payload[17..] == lists + trailer;
    NameListsRoundTrip(InOrder(k), trailer);
  }

  /** `create_kexinit_packet`: the KEXINIT payload passed to `create_packet`. */
  function CreateKexinitPacket(prims: Primitives, st: PacketState, cookie: Bytes, k: KexinitLists): (r: Result<Created, PacketError>)
    ensures r.Success? <==>
      KexinitPayload(cookie, k).Success? && CreateFits(st, |KexinitPayload(cookie, k).value|)
    ensures r.Success? ==> r.value.state == st.(sequence := st.sequence + 1)
    ensures KexinitPayload(cookie, k).Failure? ==> r == Failure(KexinitPayload(cookie, k).error)
    ensures KexinitPayload(cookie, k).Success? ==> r == CreatePacket(prims, st, KexinitPayload(cookie, k).value)
  {
    match KexinitPayload(cookie, k)
    case Failure(e) => Failure(e)
    case Success(payload) => CreatePacket(prims, st, payload)
  }

  /** Unencrypted, byte 5 of a KEXINIT packet is message number 20 and the
      cookie follows it. */
  lemma KexinitPacketLayout(prims: Primitives, st: PacketState, cookie: Bytes, k: KexinitLists)
    requires !Enabled(st.encryptionKey)
    requires KexinitPayload(cookie, k).Success? && CreateFits(st, |KexinitPayload(cookie, k).value|)
    ensures CreateKexinitPacket(prims, st, cookie, k).Success?
    ensures
      var packet := CreateKexinitPacket(prims, st, cookie, k).value.packet;
      && packet[5] == KexinitMessage
      && packet[6..6 + |cookie|] == cookie
  {
    var payload := KexinitPayload(cookie, k).value;
    assert CreateKexinitPacket(prims, st, cookie, k) == CreatePacket(prims, st, payload);
    HeaderInClear(prims, st, payload, cookie);
  }

  lemma HeaderInClear(prims: Primitives, st: PacketState, payload: Bytes, cookie: Bytes)
    requires !Enabled(st.encryptionKey)
    requires CreatePacket(prims, st, payload).Success?
    requires |payload| >= 1 + |cookie| && payload[0] == KexinitMessage && payload[1..1 + |cookie|] == cookie
    ensures
      var packet := CreatePacket(prims, st, payload).value.packet;
      packet[5] == KexinitMessage && packet[6..6 + |cookie|] == cookie
  {
    var packet := CreatePacket(prims, st, payload).value.packet;
    PayloadInClear(prims, st, payload);
    assert packet[5..5 + |payload|][0] == packet[5];
    assert packet[5..5 + |payload|][1..1 + |cookie|] == packet[6..6 + |cookie|];
  }

  /** A KEXINIT packet read back by the corrected parser under the same
      state decodes to the cookie and the ten lists. */
  lemma KexinitPacketRoundTrip(prims: Primitives, st: PacketState, cookie: Bytes, k: KexinitLists)
    requires |cookie| == 16
    requires forall i :: 0 <= i < 10 ==> WellFormedNames(InOrder(k)[i])
    requires KexinitPayload(cookie, k).Success?
    requires CreateFits(st, |KexinitPayload(cookie, k).value|)
    ensures CreateKexinitPacket(prims, st, cookie, k).Success?
    ensures
      var c := CreateKexinitPacket(prims, st, cookie, k).value;
      && ParsePacketIntended(prims, st, c.packet).Success?
      && ParseKexinitPayload(ParsePacketIntended(prims, st, c.packet).value.payload)
         == Some(Kexinit(cookie, InOrder(k), 0, [0, 0, 0, 0]))
  {
    var payload := KexinitPayload(cookie, k).value;
    RoundTripIntended(prims, st, payload);
    KexinitPayloadRoundTrip(cookie, k);
  }
}

=== FILE: py_text.dfy ===
/** Python's notion of whitespace and `str.strip()` with no arguments. */
module PyText {

  /** `str.isspace()` for one character. In a str pattern `\s` matches
      exactly these characters too, so `\S` is the complement. */
  predicate IsSpace(c: char): (b: bool)
    ensures c as int < 0x80 ==>
      (b <==> c == ' ' || c == '\t' || c == '\n' || c == '\r' || c == '\U{0B}' || c == '\U{0C}'
                || c == '\U{1C}' || c == '\U{1D}' || c == '\U{1E}' || c == '\U{1F}')
    ensures ('0' <= c <= '9') || ('A' <= c <= 'Z') || ('a' <= c <= 'z') || c == '-' || c == '.' || c == '_' ==> !b
  {
    var n := c as int;
    || 0x09 <= n <= 0x0D
    || 0x1C <= n <= 0x20
    || n == 0x85 || n == 0xA0 || n == 0x1680
    || 0x2000 <= n <= 0x200A
    || n == 0x2028 || n == 0x2029 || n == 0x202F || n == 0x205F || n == 0x3000
  }

  predicate AllSpace(s: string) {
    forall i :: 0 <= i < |s| ==> IsSpace(s[i])
  }

  /** The first index at or after `i` that holds no whitespace, or |s|. */
  function SkipSpace(s: string, i: nat): (k: nat)
    requires i <= |s|
    ensures i <= k <= |s|
    ensures forall j :: i <= j < k ==> IsSpace(s[j])
    ensures k < |s| ==> !IsSpace(s[k])
    decreases |s| - i
  {
    if i == |s| || !IsSpace(s[i]) then i else SkipSpace(s, i + 1)
  }

  /** The last index at or before `e` not preceded by whitespace, or 0. */
  function SkipSpaceBack(s: string, e: nat): (k: nat)
    requires e <= |s|
    ensures k <= e
    ensures forall j :: k <= j < e ==> IsSpace(s[j])
    ensures k > 0 ==> !IsSpace(s[k - 1])
  {
    if e == 0 || !IsSpace(s[e - 1]) then e else SkipSpaceBack(s, e - 1)
  }

  /** `r` is what is left of `s` once whitespace at both ends is removed,
      with `r` sitting at offset `a` of `s`. */
  predicate StrippedAt(s: string, r: string, a: nat) {
    && a + |r| <= |s|
    && s[a..a + |r|] == r
    && (forall j :: 0 <= j < a ==> IsSpace(s[j]))
    && (forall j :: a + |r| <= j < |s| ==> IsSpace(s[j]))
    && (|r| > 0 ==> !IsSpace(r[0]) && !IsSpace(r[|r| - 1]))
  }

  predicate IsStripOf(s: string, r: string) {
    exists a: nat :: a <= |s| && StrippedAt(s, r, a)
  }

  /** `s.strip()`. */
  function Strip(s: string): (r: string)
    ensures IsStripOf(s, r)
    ensures |r| <= |s|
  {
    var lead := SkipSpace(s, 0);
    if lead == |s| then
      assert StrippedAt(s, [], |s|);
      []
    else
      var end := SkipSpaceBack(s, |s|);
      assert !IsSpace(s[lead]);
      assert lead < end;
      var r := s[lead..end];
      assert r[0] == s[lead] && r[|r| - 1] == s[end - 1];
      assert StrippedAt(s, r, lead);
      r
  }

  /** Stripping is determined by `IsStripOf`: any string that is `s` minus
      surrounding whitespace, and neither starts nor ends with whitespace,
      is `Strip(s)`. */
  lemma StripUnique(s: string, r: string)
    requires IsStripOf(s, r)
    ensures r == Strip(s)
  {
    var a: nat :| a <= |s| && StrippedAt(s, r, a);
    if |r| > 0 {
      assert s[a] == r[0];
      assert SkipSpace(s, 0) == a;
      assert s[a + |r| - 1] == r[|r| - 1];
      assert SkipSpaceBack(s, |s|) == a + |r|;
    }
  }

  /** Whitespace appended to a string that neither starts nor ends with
      whitespace is what `strip` removes. */
  lemma StripTrailingSpace(s: string, tail: string)
    requires |s| > 0 && !IsSpace(s[0]) && !IsSpace(s[|s| - 1])
    requires AllSpace(tail)
    ensures Strip(s + tail) == s
  {
    var t := s + tail;
    assert t[..0] == [];
    assert t[0..|s|] == s;
    assert t[|s|..] == tail;
    assert StrippedAt(t, s, 0);
    StripUnique(t, s);
  }
}

=== FILE: version_exchange.dfy ===
/** `VersionExchange`: the plaintext identification-string exchange of
    section 4.2 of RFC 4253 as this client performs it. The socket is a log
    of the calls made on it plus the text the receive call returns. */
module VersionExchange {
  import opened Wrappers
  import opened Wire
  import opened PyText

  /** The client's identification string, sent without its CR LF. */
  const ClientVersion: string := "SSH-2.0-PythonSSHClient_1.0"

  /** `MAX_VERSION_LENGTH`: the longest server banner accepted after stripping. */
  const MaxVersionLength: nat := 255

  /** The literal prefix `_validate_server_version` requires. */
  const SupportedPrefix: string := "SSH-2.0-"

  /** A call made on the socket handler. */
  datatype SocketCall = Send(data: Bytes) | Receive(maxLength: nat)

  /** The three `ValueError`s of the exchange, by message. */
  datatype VersionError =
    | VersionTooLong        // "Server version string exceeds maximum length of 255 characters"
    | InvalidFormat         // "Invalid server version format"
    | InvalidVersionString  // "Invalid server version string"

  /** The bytes of the client's identification line. */
  function ClientLine(): (b: Bytes)
    ensures AsciiText(b) == ClientVersion + "\r\n"
    ensures |b| == 29 && b[27] == 13 && b[28] == 10
  {
    var line := ClientVersion + "\r\n";
    assert IsAscii(line);
    AsciiRoundTrip(line);
    AsciiBytes(line)
  }

  predicate StartsWith(s: string, prefix: string) {
    |prefix| <= |s| && s[..|prefix|] == prefix
  }

  /** The strings `^SSH-2.0-(\S+)` matches entirely: "SSH-2", one character
      other than a newline (the unescaped `.`), "0-", then one or more
      non-whitespace characters. */
  predicate BannerShaped(w: string) {
    && |w| >= 9
    && w[..5] == "SSH-2"
    && w[5] != '\n'
    && w[6..8] == "0-"
    && forall i :: 8 <= i < |w| ==> !IsSpace(w[i])
  }

  /** `v` is the longest prefix of `t` the pattern matches. */
  predicate IsLongestBanner(t: string, v: string) {
    && |v| <= |t|
    && t[..|v|] == v
    && BannerShaped(v)
    && forall k :: |v| < k <= |t| ==> !BannerShaped(t[..k])
  }

  /** The length of the run of non-whitespace characters starting at `i`. */
  function NonSpaceRun(s: string, i: nat): (n: nat)
    requires i <= |s|
    ensures i + n <= |s|
    ensures forall j :: i <= j < i + n ==> !IsSpace(s[j])
    ensures i + n < |s| ==> IsSpace(s[i + n])
    decreases |s| - i
  {
    if i == |s| || IsSpace(s[i]) then 0 else 1 + NonSpaceRun(s, i + 1)
  }

  /** Whether `t` starts with what the pattern needs before `\S+`, and one
      non-whitespace character after it. */
  predicate HasBannerStart(t: string) {
    |t| >= 9 && t[..5] == "SSH-2" && t[5] != '\n' && t[6..8] == "0-" && !IsSpace(t[8])
  }

  /** A prefix of `t` that matches shares `t`'s first nine characters. */
  lemma BannerPrefix(t: string, k: nat)
    requires k <= |t| && BannerShaped(t[..k])
    ensures HasBannerStart(t)
  {
    var w := t[..k];
    assert w[..5] == t[..5] && w[5] == t[5] && w[6..8] == t[6..8] && w[8] == t[8];
  }

  /** `re.match(r"^SSH-2.0-(\S+)", t)`: the end of the match, which `\S+`
      makes as long as possible, or `None`. */
  function MatchBanner(t: string): (r: Option<nat>)
    ensures r.None? <==> forall k :: 0 <= k <= |t| ==> !BannerShaped(t[..k])
    ensures r.Some? ==> r.value <= |t| && IsLongestBanner(t, t[..r.value])
  {
    if !HasBannerStart(t) then
      assert forall k :: 0 <= k <= |t| ==> !BannerShaped(t[..k]) by {
        forall k | 0 <= k <= |t| ensures !BannerShaped(t[..k]) {
          if BannerShaped(t[..k]) { BannerPrefix(t, k); }
        }
      }
      None
    else
      var e := 8 + NonSpaceRun(t, 8);
      var v := t[..e];
      assert v[..5] == t[..5] && v[6..8] == t[6..8];
      assert BannerShaped(v);
      assert forall k :: e < k <= |t| ==> !BannerShaped(t[..k]) by {
        forall k | e < k <= |t| ensures !BannerShaped(t[..k]) {
          assert t[..k][e] == t[e];
        }
      }
      Some(e)
  }

  /** `_parse_server_version` on the decoded text: strip, reject over-long
      text, then return the whole regex match. */
  function ParseServerVersion(received: string): (r: Result<string, VersionError>)
    ensures r == Failure(VersionTooLong) <==> |Strip(received)| > MaxVersionLength
    ensures r == Failure(InvalidFormat) <==>
      |Strip(received)| <= MaxVersionLength &&
      forall k :: 0 <= k <= |Strip(received)| ==> !BannerShaped(Strip(received)[..k])
    ensures r.Failure? ==> r.error != InvalidVersionString
    ensures r.Success? ==> |r.value| <= MaxVersionLength && IsLongestBanner(Strip(received), r.value)
  {
    var text := Strip(received);
    if |text| > MaxVersionLength then Failure(VersionTooLong)
    else
      match MatchBanner(text)
      case None => Failure(InvalidFormat)
      case Some(e) => Success(text[..e])
  }

  /** `_validate_server_version`. */
  function ValidateServerVersion(version: string): (ok: bool)
    ensures BannerShaped(version) ==> (ok <==> version[5] == '.')
  {
    StartsWith(version, SupportedPrefix)
  }

  /** The result of `exchange_versions`, the `server_version` field after
      it, and the socket calls it made. */
  datatype Exchange = Exchange(result: Result<string, VersionError>, serverVersion: Option<string>, calls: seq<SocketCall>)

  /** `exchange_versions`, given the field's prior value and the text the
      socket returns. The field is assigned before validation, so a banner
      that fails validation stays stored; a parse error leaves it as it was. */
  function ExchangeVersions(prior: Option<string>, received: string): (x: Exchange)
    ensures x.calls == [Send(ClientLine()), Receive(MaxVersionLength + 2)]
    ensures x.result == Failure(VersionTooLong) <==> |Strip(received)| > MaxVersionLength
    ensures x.result == Failure(InvalidFormat) ==> x.serverVersion == prior
    ensures x.result == Failure(VersionTooLong) ==> x.serverVersion == prior
    ensures x.result.Success? ==>
      && x.serverVersion == Some(x.result.value)
      && StartsWith(x.result.value, SupportedPrefix)
      && |x.result.value| <= MaxVersionLength
      && IsLongestBanner(Strip(received), x.result.value)
    ensures x.result == Failure(InvalidVersionString) <==>
      var t := Strip(received);
      |t| <= MaxVersionLength && HasBannerStart(t) && t[5] != '.'
    ensures x.result == Failure(InvalidVersionString) ==>
      && x.serverVersion.Some?
      && IsLongestBanner(Strip(received), x.serverVersion.value)
      && x.serverVersion.value[5] != '.'
  {
    var calls := [Send(ClientLine()), Receive(MaxVersionLength + 2)];
    match ParseServerVersion(received)
    case Failure(e) => Exchange(Failure(e), prior, calls)
    case Success(v) =>
      if !ValidateServerVersion(v) then Exchange(Failure(InvalidVersionString), Some(v), calls)
      else Exchange(Success(v), Some(v), calls)
  }

  /** The exchange succeeds exactly when the stripped text is short enough,
      starts with "SSH-2.0-" and has a non-whitespace character after it. */
  lemma ExchangeSucceedsIff(prior: Option<string>, received: string)
    ensures ExchangeVersions(prior, received).result.Success? <==>
      var t := Strip(received);
      |t| <= MaxVersionLength && |t| >= 9 && t[..8] == SupportedPrefix && !IsSpace(t[8])
  {
    var t := Strip(received);
    if |t| <= MaxVersionLength && |t| >= 9 && t[..8] == SupportedPrefix && !IsSpace(t[8]) {
      assert t[..5] == "SSH-2" && t[6..8] == "0-";
      assert HasBannerStart(t);
    }
  }

  /** The longest matching prefix is unique. */
  lemma LongestBannerUnique(t: string, v: string, w: string)
    requires IsLongestBanner(t, v) && IsLongestBanner(t, w)
    ensures v == w
  {
  }

  /** A banner followed by a space: the match stops at the space. */
  lemma ExchangeOpenSsh(prior: Option<string>)
    ensures ExchangeVersions(prior, "SSH-2.0-OpenSSH_8.2p1 Ubuntu-4ubuntu0.5\r\n").result
      == Success("SSH-2.0-OpenSSH_8.2p1")
  {
    StripOpenSsh();
    OpenSshLongest();
    ExchangeAccepts(prior, "SSH-2.0-OpenSSH_8.2p1 Ubuntu-4ubuntu0.5\r\n", "SSH-2.0-OpenSSH_8.2p1");
  }

  /** A stripped text of acceptable length whose longest match starts with
      "SSH-2.0-" is the exchange's result. */
  lemma ExchangeAccepts(prior: Option<string>, received: string, v: string)
    requires |Strip(received)| <= MaxVersionLength
    requires IsLongestBanner(Strip(received), v)
    requires v[5] == '.'
    ensures ExchangeVersions(prior, received).result == Success(v)
  {
    var t := Strip(received);
    assert BannerShaped(t[..|v|]);
    var r := ParseServerVersion(received);
    LongestBannerUnique(t, r.value, v);
  }

  lemma StripOpenSsh()
    ensures Strip("SSH-2.0-OpenSSH_8.2p1 Ubuntu-4ubuntu0.5\r\n") == "SSH-2.0-OpenSSH_8.2p1 Ubuntu-4ubuntu0.5"
  {
    var line := "SSH-2.0-OpenSSH_8.2p1 Ubuntu-4ubuntu0.5";
    assert line + "\r\n" == "SSH-2.0-OpenSSH_8.2p1 Ubuntu-4ubuntu0.5\r\n";
    assert AllSpace("\r\n");
    StripTrailingSpace(line, "\r\n");
  }

  lemma OpenSshLongest()
    ensures IsLongestBanner("SSH-2.0-OpenSSH_8.2p1 Ubuntu-4ubuntu0.5", "SSH-2.0-OpenSSH_8.2p1")
  {
    var line := "SSH-2.0-OpenSSH_8.2p1 Ubuntu-4ubuntu0.5";
    var v := "SSH-2.0-OpenSSH_8.2p1";
    assert line[..21] == v;
    assert v[..5] == "SSH-2" && v[6..8] == "0-";
    assert BannerShaped(v);
    assert forall k :: 21 < k <= |line| ==> !BannerShaped(line[..k]) by {
      forall k | 21 < k <= |line| ensures !BannerShaped(line[..k]) {
        assert line[..k][21] == ' ';
      }
    }
  }

  /** Text that does not start with "SSH-2" fails the format check. */
  lemma ExchangeMalformed(prior: Option<string>)
    ensures ExchangeVersions(prior, "Invalid-SSH-Version\r\n").result == Failure(InvalidFormat)
  {
    var line := "Invalid-SSH-Version";
    assert line + "\r\n" == "Invalid-SSH-Version\r\n";
    assert AllSpace("\r\n");
    StripTrailingSpace(line, "\r\n");
    assert line[..5] != "SSH-2";
    assert !HasBannerStart(line);
  }

  /** 264 characters after stripping: the length check fires first. */
  lemma ExchangeTooLong(prior: Option<string>)
    ensures
      var received := SupportedPrefix + seq(256, _ => 'X') + "\r\n";
      ExchangeVersions(prior, received).result == Failure(VersionTooLong)
  {
    var line := SupportedPrefix + seq(256, _ => 'X');
    assert line[|line| - 1] == 'X';
    assert AllSpace("\r\n");
    StripTrailingSpace(line, "\r\n");
  }

  /** The unescaped `.` lets "SSH-2x0-" through the pattern; the literal
      prefix check then rejects it, after it has been stored. */
  lemma ExchangeWildcardVersion(prior: Option<string>)
    ensures
      var x := ExchangeVersions(prior, "SSH-2x0-abc");
      x.result == Failure(InvalidVersionString) && x.serverVersion == Some("SSH-2x0-abc")
  {
    var line := "SSH-2x0-abc";
    assert StrippedAt(line, line, 0);
    StripUnique(line, line);
    assert line[..5] == "SSH-2" && line[6..8] == "0-";
    assert HasBannerStart(line);
    assert line[..|line|] == line;
    assert BannerShaped(line);
    var x := ExchangeVersions(prior, line);
    LongestBannerUnique(line, ParseServerVersion(line).value, line);
  }
}

=== FILE: wire.dfy ===
/** Byte-level building blocks shared by the packet codec: Python's
    `struct.pack(">I", n)` / `struct.unpack(">I", b)`, Python slicing with
    negative and out-of-range bounds, ASCII encoding, and the XOR at the
    heart of a counter-mode stream cipher. */
module Wire {

  /** One octet, as Python's `bytes` objects hold them. */
  type byte = x: int | 0 <= x < 0x100

  type Bytes = seq<byte>

  /** `struct.pack(">I", n)` raises for every n at or above this bound. */
  const TwoTo32: nat := 0x1_0000_0000

  /** The unsigned big-endian value of four bytes, `struct.unpack(">I", b)[0]`. */
  function Be32Value(b: Bytes): (n: nat)
    requires |b| == 4
    ensures n < TwoTo32
    ensures n / 0x100_0000 == b[0] && (n / 0x1_0000) % 0x100 == b[1]
    ensures (n / 0x100) % 0x100 == b[2] && n % 0x100 == b[3]
  {
    var x1: nat := b[0] as int * 0x100 + b[1];
    var x2: nat := x1 * 0x100 + b[2];
    DivMod256(x2, b[3]);
    DivMod256(x1, b[2]);
    DivMod256(b[0], b[1]);
    x2 * 0x100 + b[3]
  }

  /** `struct.pack(">I", n)`: four bytes, most significant first. The range
      check that makes Python raise is the caller's branch. */
  function Be32(n: nat): (b: Bytes)
    requires n < TwoTo32
    ensures |b| == 4
    ensures Be32Value(b) == n
  {
    var n1 := n / 0x100;
    var n2 := n1 / 0x100;
    var n3 := n2 / 0x100;
    DivBound(n, 0x100_0000);
    DivBound(n1, 0x1_0000);
    DivBound(n2, 0x100);
    [n3, n2 % 0x100, n1 % 0x100, n % 0x100]
  }

  /** Unpacking and repacking four bytes gives them back. */
  lemma Be32OfValue(b: Bytes)
    requires |b| == 4
    ensures Be32(Be32Value(b)) == b
  {
  }

  /** Euclidean division of 256 q + r by 256. */
  lemma DivMod256(q: nat, r: nat)
    requires r < 0x100
    ensures (q * 0x100 + r) / 0x100 == q && (q * 0x100 + r) % 0x100 == r
  {
  }

  lemma DivBound(n: nat, k: nat)
    requires n < k * 0x100
    ensures n / 0x100 < k
  {
  }

  /** Python's normalisation of one slice bound for a sequence of length
      `len`: a negative bound counts from the end, and the result is clamped
      to [0, len]. */
  function PyBound(i: int, len: nat): (k: nat)
    ensures k <= len
    ensures 0 <= i <= len ==> k == i
    ensures -(len as int) <= i < 0 ==> k as int == len as int + i
    ensures i > len ==> k == len
    ensures i < -(len as int) ==> k == 0
  {
    if i < 0 then (if len + i < 0 then 0 else len + i)
    else if i > len then len
    else i
  }

  /** Python's `s[start:stop]` (step 1): never raises, empty when the
      normalised bounds cross. */
  function PySlice(s: Bytes, start: int, stop: int): (r: Bytes)
    ensures |r| <= |s|
    ensures 0 <= start <= stop <= |s| ==> r == s[start..stop]
    ensures PyBound(start, |s|) >= PyBound(stop, |s|) ==> r == []
    ensures PyBound(start, |s|) < PyBound(stop, |s|) ==> |r| == PyBound(stop, |s|) - PyBound(start, |s|)
  {
    var lo := PyBound(start, |s|);
    var hi := PyBound(stop, |s|);
    if lo < hi then s[lo..hi] else []
  }

  /** The parts joined end to end, in order. */
  function Concat(parts: seq<Bytes>): Bytes {
    if parts == [] then [] else parts[0] + Concat(parts[1..])
  }

  predicate IsAscii(s: string) {
    forall i :: 0 <= i < |s| ==> s[i] as int < 0x80
  }

  /** Text is ASCII exactly when both of its parts are. */
  lemma AsciiConcat(a: string, b: string)
    ensures IsAscii(a + b) <==> IsAscii(a) && IsAscii(b)
  {
    if IsAscii(a + b) {
      assert forall i :: 0 <= i < |a| ==> a[i] == (a + b)[i];
      assert forall i :: 0 <= i < |b| ==> b[i] == (a + b)[|a| + i];
    }
  }

  /** `s.encode("ascii")` for text that encodes without error. */
  function AsciiBytes(s: string): (b: Bytes)
    requires IsAscii(s)
    ensures |b| == |s|
    ensures forall i :: 0 <= i < |s| ==> b[i] == s[i] as int
  {
    seq(|s|, i requires 0 <= i < |s| => s[i] as int)
  }

  /** `b.decode("ascii")` for bytes below 0x80. */
  function AsciiText(b: Bytes): (s: string)
    ensures |s| == |b|
    ensures forall i :: 0 <= i < |b| ==> s[i] as int == b[i]
  {
    seq(|b|, i requires 0 <= i < |b| => b[i] as char)
  }

  lemma AsciiRoundTrip(s: string)
    requires IsAscii(s)
    ensures AsciiText(AsciiBytes(s)) == s
  {
    var t := AsciiText(AsciiBytes(s));
    assert forall i :: 0 <= i < |s| ==> t[i] as int == s[i] as int;
  }

  function Pow2(n: nat): (p: nat)
    ensures p > 0
  {
    if n == 0 then 1 else 2 * Pow2(n - 1)
  }

  /** Bitwise exclusive or of the low `width` bits of `a` and `b`. */
  function XorBits(a: nat, b: nat, width: nat): (r: nat)
    ensures r < Pow2(width)
  {
    if width == 0 then 0
    else (a % 2 + b % 2) % 2 + 2 * XorBits(a / 2, b / 2, width - 1)
  }

  /** XOR with the same `b` twice gives back any `a` that fits the width. */
  lemma {:induction false} XorBitsInvolutive(a: nat, b: nat, width: nat)
    requires a < Pow2(width)
    ensures XorBits(XorBits(a, b, width), b, width) == a
  {
    if width > 0 {
      var x := (a % 2 + b % 2) % 2;
      var y := XorBits(a / 2, b / 2, width - 1);
      LowBit(x, y);
      assert XorBits(a, b, width) == x + 2 * y;
      assert (x + b % 2) % 2 == a % 2;
      XorBitsInvolutive(a / 2, b / 2, width - 1);
      assert XorBits(x + 2 * y, b, width) == a % 2 + 2 * (a / 2);
    }
  }

  /** The low bit and the rest of `x + 2 * y` for a single bit `x`. */
  lemma LowBit(x: nat, y: nat)
    requires x < 2
    ensures (x + 2 * y) % 2 == x && (x + 2 * y) / 2 == y
  {
  }

  /** Bitwise exclusive or of two octets. */
  function XorByte(a: byte, b: byte): (r: byte)
  {
    XorBits(a, b, 8)
  }

  /** Byte-wise XOR of `data` with an equally long keystream; XORing with
      the same keystream again undoes it. */
  function Xor(data: Bytes, keystream: Bytes): (r: Bytes)
    requires |keystream| == |data|
    ensures |r| == |data|
  {
    seq(|data|, i requires 0 <= i < |data| => XorByte(data[i], keystream[i]))
  }

  lemma XorInvolutive(data: Bytes, keystream: Bytes)
    requires |keystream| == |data|
    ensures Xor(Xor(data, keystream), keystream) == data
  {
    forall i | 0 <= i < |data| {
      XorBitsInvolutive(data[i], keystream[i], 8);
    }
  }
}

=== FILE: wrappers.dfy ===
/** Option and Result, which the rest of the model uses for Python's `None`
    and for operations that raise. */
module Wrappers {

  datatype Option<+T> = None | Some(value: T)

  /** `Failure` stands for a Python exception escaping the modelled call. */
  datatype Result<+R, +E> = Success(value: R) | Failure(error: E)
}
